=== FILE: README.md ===
# mange billing core in Dafny

A model of the billing core of *mange*, a small utility-billing application.
Branches (companies) carry a meter reading, the reading at the last
liquidation, a consumption limit and two surcharges. Liquidating a branch
closes its billing period: the excess over the limit is snapshotted into a
new bill and the last reading advances to the current one. Reports are
read-only queries over the bills: total, average and "predicted"
consumption between two dates, over-consumption, a date-range comparison
and per-branch alerts. Users log in with a name and password and receive
the token created with them.

Files (one module each, imported by name):

- `results.dfy` (`Results`): the failures the client raises (`.one()` finding zero or several rows, a commit refused by a unique or NOT NULL constraint, a division by zero) as a `Result`, and `Option`.
- `query.dfy` (`Query`): `_get` as a conjunction of equality filters over the rows of one kind in store order (`Select`), the `.filter` chains (`Filter`) and the `.one()` terminal (`One`), with lemmas on order, idempotence and commutation of filters.
- `table_names.dfy` (`TableNames`): the declarative base's CamelCase to snake_case table naming, as the source's insertion loop (`TableNameOf`) proved against a recursive definition (`TableName`).
- `entities.dfy` (`Entities`): the records (company, bill, user, token), the charge (`Calculate`) and the excess over the limit (`OverLimit`) of a branch, and column access, assignment and row construction for companies.
- `reports.dfy` (`Reports`): the consumption reports.
- `auth.dfy` (`Auth`): `login` and `user_from_token` over the users and tokens, with the password hash as a parameter.
- `client.dfy` (`Client`): the `Store` class holding the session's rows as sequences; its methods create, update, get-or-create, register users and liquidate bills in place, and keep the store invariant `Valid()` (ids are autoincrement positions, every bill belongs to a stored branch, every user holds the token created with it, and company names and user names are unique).
- `scenarios.dfy` (`Scenarios`): the unit tests of `test/test_db.py` as store clients whose contracts are the tests' expectations; the login scenario adds one expectation the test does not check, that a wrong password is refused.

Where the schema and the client disagree, the model follows the client. The
`Sucursal` class declares Spanish columns (`limite`, `porciento_extra` with
default 15, `aumento` with default 20), while `calculate`, `over_limit` and
the client read `reading`, `last_reading`, `limit`, `extra_percent` and
`extra`, and the client imports `Company` and `Bill`, which the schema file
does not define. The model has one company record with the five fields the
methods use, the defaults 15 and 20, and the name column (unique, NOT NULL).
A new company must be given its name, last reading, reading and limit.

`calculate` rounds with floor division by 100, which is Dafny's `/` for a
positive divisor. Dates are integer timestamps in seconds. The day count
of a span is rounded down, as Python's `timedelta.days` is, and the month
count is that rounded down again by 30. `average_consumption` evaluates
the month count first and then the total, and only then divides. So a
missing bill is reported before a span that is too short. Its result is a
`real` quotient.

## Model

| member | source | states |
|---|---|---|
| `TableNames.ProgressEnds` | src/mange/db.py:44-47 | before the scan the character list is the class name, after it the name with every underscore inserted |
| `TableNames.InsertStep` | src/mange/db.py:45-46 | inserting `_` at `match.end() + index` before an uppercase letter, and nothing otherwise, extends the handled prefix by one character; `index` stays the count of uppercase letters seen |
| `TableNames.TableNameOf` | src/mange/db.py:41-48 | the insertion loop, with the offset shifted by the underscores already inserted, yields exactly `TableName` of the class name |
| `TableNames.TableNameLength` | src/mange/db.py:44-47 | the table name is as long as the class name plus the number of uppercase letters after its first character |
| `TableNames.TableNameHead` | src/mange/db.py:45 | the first character is the lowercased first character of the class name, so the table name starts with `_` only when the class name does |
| `TableNames.TableNameAt` | src/mange/db.py:45-47 | character `i >= 1` of the class name lands lowercased at `i` plus the number of uppercase letters in `s[1..i + 1]` (characters 1 to `i`, itself included), with `_` right before it exactly where it is uppercase |
| `TableNames.UnsnakeUnderscored` | src/mange/db.py:44-47 | removing each `_` that stands before an uppercase letter gives back the class name: the inserted underscores are the only change before lowercasing |
| `TableNames.SucursalTable` | src/mange/db.py:87 | class `Sucursal` gets table `sucursal`, the table its foreign keys name |
| `TableNames.TwoWordTable` | src/mange/db.py:41-48 | `BillItem` gets `bill_item` |
| `Entities.Calculate` | src/mange/db.py:77-78 | the charge minus `extra` is the period's consumption times `(100 + extra_percent) / 100` rounded down: `100 * (r - extra) <= delta * (100 + p) < 100 * (r - extra + 1)` |
| `Entities.ChargeAtLeastExtra` | src/mange/db.py:78 | with a non-negative consumption and surcharge percentage the charge is at least `extra` |
| `Entities.ChargeWithoutConsumption` | src/mange/db.py:78 | with no consumption the charge is exactly `extra` |
| `Entities.DefaultCharge` | src/mange/db.py:72-78 | with the default surcharges the charge is `delta * 115 / 100 + 20` |
| `Entities.ChargeMonotone` | src/mange/db.py:78 | raising the reading never lowers the charge (percentage at least -100) |
| `Entities.OverLimit` | src/mange/db.py:80-82 | never negative, zero exactly when the reading is at most the limit, otherwise reading minus limit |
| `Entities.OverLimitMonotone` | src/mange/db.py:82 | raising the reading never lowers the excess |
| `Entities.SetField` | src/mange/api.py:134-135 | one `setattr` sets the named column to the value and leaves the id and every other column unchanged |
| `Entities.Assign` | src/mange/api.py:133-135 | every column named in the update holds its value afterwards, every other column and the id keep theirs |
| `Entities.NewCompany` | src/mange/api.py:121-127 | a new row succeeds exactly when the required columns are given (else NOT NULL failure), carries the given values and the defaults 15 and 20 |
| `Query.Select` | src/mange/api.py:112-118 | `_get` returns exactly the rows that pass every equality filter; with no filter, all rows |
| `Query.SelectAppend` | src/mange/api.py:112-118 | the result keeps store order: selecting from `a + b` is selecting from `a` then from `b` |
| `Query.SelectSnoc` | src/mange/api.py:112-118 | an empty store selects nothing, and a row added to the store is selected last exactly when it passes the filters, so each row is counted once |
| `Query.One` | src/mange/api.py:230-231 | `.one()` succeeds exactly on one row, with that row; no row is `NotFound`, several are `MultipleResultsFound` |
| `Query.Filter` | src/mange/api.py:244 | a `.filter` keeps exactly the rows that pass, never more rows than it was given |
| `Reports.Days` | src/mange/api.py:239 | the day count of a span, rounded down: `86400 * d <= end - start < 86400 * (d + 1)` |
| `Reports.Months` | src/mange/api.py:239 | the month count `days // 30`, zero exactly when the span has 0 to 29 days |
| `Reports.BillsAt` | src/mange/api.py:230-231 | the bills of that company on exactly that date |
| `Reports.BillsAtAppend` | src/mange/api.py:230-231 | a bill added to the store is found last exactly when it is the company's bill on that date, so the count `.one()` checks is the number of such bills |
| `Reports.TotalConsumption` | src/mange/api.py:228-233 | succeeds exactly when each date holds one bill of the company, and is then the end reading minus the start reading; `NotFound` when a date has none (start looked up first) |
| `Reports.TotalAdditive` | src/mange/api.py:228-233 | totals over `d1..d2` and `d2..d3` add up to the total over `d1..d3` |
| `Reports.AverageConsumption` | src/mange/api.py:235-240 | a failed total is reported as is; otherwise a span of 0 to 29 days is a division by zero, and else it succeeds and the result times the months is the total |
| `Reports.PredictConsumption` | src/mange/api.py:246-248 | the prediction is the average |
| `Reports.OverConsumption` | src/mange/api.py:242-244 | exactly the bills of any company that are over the limit |
| `Reports.OverConsumptionIgnoresDates` | src/mange/api.py:242-244 | the dates given do not change the result |
| `Reports.OverConsumptionAppend` | src/mange/api.py:242-244 | empty for no bills; a new bill leaves the earlier report as it was and is listed last exactly when it is over the limit, so the report is the over-limit bills in store order, each once |
| `Reports.CompareConsumption` | src/mange/api.py:250-254 | exactly the bills dated within the range, both ends included, of any company; empty when the range is reversed |
| `Reports.CompareConsumptionAppend` | src/mange/api.py:250-254 | empty for no bills; a new bill leaves the earlier result as it was and is listed last exactly when its date lies in the range, so the result keeps store order with each bill once |
| `Reports.ListAlerts` | src/mange/api.py:256-258 | exactly the company's bills that are over the limit |
| `Reports.AlertsAreOverConsumption` | src/mange/api.py:256-258 | a company's alerts are the over-consumption bills that belong to it, in the same order |
| `Reports.AlertQueriesIdempotent` | src/mange/api.py:242-258 | querying the result of an alert query again returns it unchanged |
| `Reports.ListAlertsAppend` | src/mange/api.py:256-258 | a new bill leaves the earlier alerts as they were and is listed last exactly when it is an alert of the company |
| `Auth.TokenOf` | src/mange/db.py:121 | the user's token is a stored token linked to the user; none only when no token is linked |
| `Auth.UserById` | src/mange/db.py:129-133 | the token's user is a stored user with that id; none only when no user has it |
| `Auth.WithCredentials` | src/mange/api.py:202 | exactly the users with that name and that password digest |
| `Auth.WithValue` | src/mange/api.py:207 | exactly the tokens with that value |
| `Auth.WithCredentialsAppend` | src/mange/api.py:202 | a user added to the store is found last exactly when it has the name and the digest; none in an empty store |
| `Auth.WithValueAppend` | src/mange/api.py:207 | a token added to the store is found last exactly when it has the value; none in an empty store |
| `Auth.CredentialsAtMostOne` | src/mange/db.py:117 | with unique user names at most one user has given credentials |
| `Auth.Login` | src/mange/api.py:201-204 | succeeds exactly when one user has the name and the hash of the password, returning that user's token; `NotFound` exactly when none has, `MultipleResultsFound` exactly when several have |
| `Auth.LoginNeverMultiple` | src/mange/api.py:201-204 | with unique user names, logging in never fails with `MultipleResultsFound` |
| `Auth.UserFromToken` | src/mange/api.py:206-207 | succeeds exactly when one token has the value, returning its user; `NotFound` exactly when none has, `MultipleResultsFound` exactly when several have |
| `Auth.LoginAfterCreate` | src/mange/api.py:181-204 | after a user is registered under a fresh name, logging in with its password returns the token created with it, and a password with another hash fails |
| `Auth.LoginInverse` | src/mange/api.py:201-207 | when token values are distinct, the token returned by a login leads back to the user with that name and password hash |
| `Client.Store.CreateCompany` | src/mange/api.py:121-127 | the store grows by the new row exactly when the required columns are given and the name is free; otherwise NOT NULL or unique failure and nothing changes |
| `Client.Store.Update` | src/mange/api.py:129-137 | refused with a unique violation, nothing changed, exactly when the update names a name another company has; otherwise the company becomes `Assign(old, kv)` and every other row is unchanged; company and user names stay unique |
| `Client.Store.GetOrCreateCompany` | src/mange/api.py:147-153 | the first matching company with the store unchanged; when none matches, it succeeds exactly when the required columns are given and the name is free, with the new row `NewCompany` builds (given values, defaults 15 and 20) appended and matching the filters; otherwise NOT NULL or unique failure and nothing changes |
| `Client.Store.CreateUser` | src/mange/api.py:177-186 | a fresh name adds one user holding the hash of the password and exactly one token linked to it; a taken name fails with nothing added |
| `Client.Store.LiquidateBill` | src/mange/api.py:209-225 | the last reading becomes the old reading, nothing else in the company changes, and exactly one bill is appended with the company, date, reading and the excess before the update; earlier bills and alerts stay |
| `Scenarios.LiquidateScenario` | src/mange/test/test_db.py:44-58 | readings 50 and 150 under limit 100: the last reading becomes 50, the excesses are 0 and 50 |
| `Scenarios.ThreeDays` | src/mange/test/test_db.py:60-80 | with one bill a day, the total from the first to the third day is the difference of their readings |
| `Scenarios.TotalScenario` | src/mange/test/test_db.py:60-80 | readings 150, 300, 500 on three days give a total of 350 |
| `Scenarios.OverConsumptionScenario` | src/mange/test/test_db.py:82-90 | a reading of 1 over limit 0 gives one bill, which is the whole over-consumption report |
| `Scenarios.LoginScenario` | src/mange/test/test_db.py:38-42 | logging in returns exactly the token created with the user (id 1, the value given at registration, linked to the user), as the test checks; the added expectation, not in the test, that a wrong password gets `NotFound` comes from `LoginAfterCreate` |

## Left out

- HTTP routing, JSON encoding, error bodies, the plugin loader and the PDF exporter (server.py, plugins/pdf.py) are framework plumbing and foreign code. They are not part of this model.
- Database bootstrap, schema timestamps and backups (`create_db`, `drop_db`, `db_schema_modified`, `load_backup`) are file and SQLite I/O. The `Area`, `Equipo`, `Registro` and `Group` schemas only declare columns.
- Session mechanics are not modelled: commit, rollback, scoped sessions and the constructor's file checks. Every store method is one atomic step. `liquidate_bill` updates the branch and appends the bill together.
- The `update` branch for a model class chains `.one()` on an update count, and `add_user_to_grup` names an undefined variable. Both are broken code and are not modelled.
- SHA-256 is the store's `hash` parameter, any function from passwords to digests. `uuid4` is the token value the caller passes to `CreateUser`. `LoginInverse` assumes distinct token values, as random identifiers are meant to be. No lemma assumes the hash is injective. `LoginAfterCreate` only assumes that the wrong password has a different digest.
- `liquidate_bill` reads the clock when no date is given. In the model the caller passes the date.
- The `cost` computed in `liquidate_bill` is discarded by the source and is not stored on bills.
- The logging and benchmarking decorators, settings modules, setup scripts and test shell are configuration and process plumbing.
- `Client.Store.Update`: the source's `update` does not commit, so a name already held by another company is refused only at the next commit, with an integrity error (in `liquidate_bill`, api.py:218). The model refuses it in `Update` itself, each method being one atomic step.
- `Client.Store.Update`: modelled for company rows only, the only kind the core updates. The values must have the column's type. Python's `setattr` would accept any object.
- `Client.Store.CreateCompany`: `_create` is modelled for companies, and through `CreateUser` and `LiquidateBill` for users, tokens and bills. Unknown keyword arguments are excluded by the column type. The source's constructor would raise `TypeError` for them.
- `Client.Store.CreateUser`: takes a name and a password. Other user columns, such as the group, are not modelled. A missing `password` argument, a `KeyError` in the source, cannot occur. The user name column is nullable in the schema (db.py:117), so the source can store users without a name, and a unique constraint admits several NULL names; the model always takes a name, and `Valid()` keeps every user name distinct.
- `TableNames.Lower`: lowercases ASCII letters only. Python's `str.lower` also maps non-ASCII letters. The scanning pattern `[A-Z]` is ASCII in both.
- `Reports.AverageConsumption`: the quotient is an exact `real`, not a floating-point value.
- Dates have no time zone or calendar. They are seconds on one integer scale.

=== FILE: auth.dfy ===
/** Users and their tokens: `login` and `user_from_token`. The password hash
    is a parameter: any function from passwords to digests. */
module Auth {
  import opened Results
  import opened Query
  import opened Entities

  datatype UserColumn = UserName | Password

  function UserField(u: User, col: UserColumn): Value {
    match col
    case UserName => TextValue(u.name)
    case Password => TextValue(u.password)
  }

  datatype TokenColumn = TokenValue

  function TokenField(t: Token, col: TokenColumn): Value {
    match col
    case TokenValue => TextValue(t.value)
  }

  /** Every user holds the token created with it: ids are positions, and the
      token at each position is linked to the user at that position. */
  ghost predicate Linked(users: seq<User>, tokens: seq<Token>) {
    |users| == |tokens| &&
    (forall i :: 0 <= i < |users| ==> users[i].id == i + 1) &&
    (forall i :: 0 <= i < |tokens| ==> tokens[i].id == i + 1 && tokens[i].userId == i + 1)
  }

  /** No two tokens share a value. */
  ghost predicate DistinctValues(tokens: seq<Token>) {
    forall i, j :: 0 <= i < j < |tokens| ==> tokens[i].value != tokens[j].value
  }

  /** The `user.token` relationship: the first token linked to the user. */
  function TokenOf(tokens: seq<Token>, userId: nat): (r: Option<Token>)
    ensures r.Some? ==> r.value in tokens && r.value.userId == userId
    ensures r.None? <==> forall t :: t in tokens ==> t.userId != userId
  {
    FirstWhere(tokens, (t: Token) => t.userId == userId)
  }

  /** The `token.user` relationship: the user a token is linked to. */
  function UserById(users: seq<User>, id: nat): (r: Option<User>)
    ensures r.Some? ==> r.value in users && r.value.id == id
    ensures r.None? <==> forall u :: u in users ==> u.id != id
  {
    FirstWhere(users, (u: User) => u.id == id)
  }

  lemma MatchesCredentials(u: User, name: string, digest: string)
    ensures Matches(UserField, map[UserName := TextValue(name), Password := TextValue(digest)], u)
      <==> u.name == name && u.password == digest
  {
    var kv := map[UserName := TextValue(name), Password := TextValue(digest)];
    assert UserName in kv && Password in kv;
  }

  /** `_get(User, name=name, password=digest)`. */
  function WithCredentials(users: seq<User>, name: string, digest: string): (r: seq<User>)
    ensures forall u :: u in r <==> u in users && u.name == name && u.password == digest
  {
    var kv := map[UserName := TextValue(name), Password := TextValue(digest)];
    assert forall u :: (Matches(UserField, kv, u) <==> u.name == name && u.password == digest) by {
      forall u { MatchesCredentials(u, name, digest); }
    }
    Select(users, UserField, kv)
  }

  /** `_get(Token, value=value)`. */
  function WithValue(tokens: seq<Token>, value: string): (r: seq<Token>)
    ensures forall t :: t in r <==> t in tokens && t.value == value
  {
    var kv := map[TokenValue := TextValue(value)];
    assert TokenValue in kv;
    Select(tokens, TokenField, kv)
  }

  /** A user added to the store is found last exactly when it has the name
      and the digest, so each user is counted once. */
  lemma WithCredentialsAppend(users: seq<User>, u: User, name: string, digest: string)
    ensures WithCredentials([], name, digest) == []
    ensures WithCredentials(users + [u], name, digest) ==
      WithCredentials(users, name, digest) + (if u.name == name && u.password == digest then [u] else [])
  {
    SelectSnoc(users, u, UserField, map[UserName := TextValue(name), Password := TextValue(digest)]);
    MatchesCredentials(u, name, digest);
  }

  /** The same for tokens and their values. */
  lemma WithValueAppend(tokens: seq<Token>, t: Token, value: string)
    ensures WithValue([], value) == []
    ensures WithValue(tokens + [t], value) == WithValue(tokens, value) + (if t.value == value then [t] else [])
  {
    var kv := map[TokenValue := TextValue(value)];
    SelectSnoc(tokens, t, TokenField, kv);
    assert TokenValue in kv;
  }

  /** No two users share a name (the unique name column). */
  ghost predicate DistinctNames(users: seq<User>) {
    forall i, j :: 0 <= i < j < |users| ==> users[i].name != users[j].name
  }

  /** With distinct names at most one user has given credentials. */
  lemma {:induction false} CredentialsAtMostOne(users: seq<User>, name: string, digest: string)
    requires DistinctNames(users)
    ensures |WithCredentials(users, name, digest)| <= 1
  {
    if users != [] {
      var init, u := users[..|users| - 1], users[|users| - 1];
      assert users == init + [u];
      WithCredentialsAppend(init, u, name, digest);
      DistinctPrefix(users, init);
      CredentialsAtMostOne(init, name, digest);
      if u.name == name {
        NoCredentials(init, name, digest);
      }
    }
  }

  /** Dropping the last user keeps names distinct, and no user before it has its name. */
  lemma DistinctPrefix(users: seq<User>, init: seq<User>)
    requires users != [] && DistinctNames(users) && init == users[..|users| - 1]
    ensures DistinctNames(init)
    ensures forall i :: 0 <= i < |init| ==> init[i].name != users[|users| - 1].name
  {
  }

  /** No user has the name: nobody has the credentials. */
  lemma NoCredentials(users: seq<User>, name: string, digest: string)
    requires forall i :: 0 <= i < |users| ==> users[i].name != name
    ensures WithCredentials(users, name, digest) == []
  {
    var kv := map[UserName := TextValue(name), Password := TextValue(digest)];
    forall i | 0 <= i < |users| ensures !Matches(UserField, kv, users[i]) {
      MatchesCredentials(users[i], name, digest);
    }
    SelectNone(users, UserField, kv);
  }

  /** `login`: the one user with this name and the hash of this password, and
      that user's token; no such user, or several, is a failure. */
  function Login(users: seq<User>, tokens: seq<Token>, hash: string -> string, name: string, password: string)
    : (r: Result<Option<Token>>)
    ensures r.Ok? <==> |WithCredentials(users, name, hash(password))| == 1
    ensures r == Err(NotFound) <==> forall u :: u in users ==> !(u.name == name && u.password == hash(password))
    ensures r == Err(MultipleResultsFound) <==> |WithCredentials(users, name, hash(password))| > 1
    ensures r.Ok? ==> exists u :: u in users && u.name == name && u.password == hash(password) && r.value == TokenOf(tokens, u.id)
  {
    var found := WithCredentials(users, name, hash(password));
    assert found != [] ==> found[0] in found;
    match One(found)
    case Err(e) => Err(e)
    case Ok(u) => Ok(TokenOf(tokens, u.id))
  }

  /** On a store whose user names are distinct, logging in never finds
      several users. */
  lemma LoginNeverMultiple(users: seq<User>, tokens: seq<Token>, hash: string -> string, name: string, password: string)
    requires DistinctNames(users)
    ensures Login(users, tokens, hash, name, password) != Err(MultipleResultsFound)
  {
    CredentialsAtMostOne(users, name, hash(password));
  }

  /** `user_from_token`: the user linked to the one token with this value. */
  function UserFromToken(users: seq<User>, tokens: seq<Token>, value: string): (r: Result<Option<User>>)
    ensures r.Ok? <==> |WithValue(tokens, value)| == 1
    ensures r == Err(NotFound) <==> forall t :: t in tokens ==> t.value != value
    ensures r == Err(MultipleResultsFound) <==> |WithValue(tokens, value)| > 1
    ensures r.Ok? ==> exists t :: t in tokens && t.value == value && r.value == UserById(users, t.userId)
  {
    var found := WithValue(tokens, value);
    assert found != [] ==> found[0] in found;
    match One(found)
    case Err(e) => Err(e)
    case Ok(t) => Ok(UserById(users, t.userId))
  }

  /** Linked users and tokens find each other through both relationships. */
  lemma LinkedLookups(users: seq<User>, tokens: seq<Token>, i: nat)
    requires Linked(users, tokens) && i < |users|
    ensures TokenOf(tokens, users[i].id) == Some(tokens[i])
    ensures UserById(users, tokens[i].userId) == Some(users[i])
  {
  }

  /** Once a user is registered under a fresh name, logging in with that name
      and password returns the token created with it, and any password whose
      hash differs fails. */
  lemma {:induction false} LoginAfterCreate(
    users: seq<User>, tokens: seq<Token>, hash: string -> string,
    name: string, password: string, other: string, tokenValue: string)
    requires Linked(users, tokens)
    requires forall u :: u in users ==> u.name != name
    requires hash(other) != hash(password)
    ensures var user := User(|users| + 1, name, hash(password));
      var token := Token(|tokens| + 1, tokenValue, user.id);
      Login(users + [user], tokens + [token], hash, name, password) == Ok(Some(token)) &&
      Login(users + [user], tokens + [token], hash, name, other) == Err(NotFound)
  {
    var user := User(|users| + 1, name, hash(password));
    var token := Token(|tokens| + 1, tokenValue, user.id);
    var users', tokens' := users + [user], tokens + [token];
    var kv := map[UserName := TextValue(name), Password := TextValue(hash(password))];
    forall j | 0 <= j < |users'| && j != |users|
      ensures !Matches(UserField, kv, users'[j])
    {
      MatchesCredentials(users'[j], name, hash(password));
      assert users'[j] in users;
    }
    MatchesCredentials(user, name, hash(password));
    SelectUnique(users', UserField, kv, |users|);
    assert users'[|users|] == user;
    LinkedLookups(users', tokens', |users|);
  }

  /** The token value identifies its user again: `user_from_token` inverts
      `login` when no two tokens share a value. */
  lemma LoginInverse(users: seq<User>, tokens: seq<Token>, hash: string -> string,
                     name: string, password: string, token: Token)
    requires Linked(users, tokens) && DistinctValues(tokens)
    requires Login(users, tokens, hash, name, password) == Ok(Some(token))
    ensures exists u: User :: (UserFromToken(users, tokens, token.value) == Ok(Some(u)) &&
                                u.name == name && u.password == hash(password) && u.id == token.userId)
  {
    var u :| u in users && u.name == name && u.password == hash(password) && Some(token) == TokenOf(tokens, u.id);
    var i :| 0 <= i < |users| && users[i] == u;
    LinkedLookups(users, tokens, i);
    var kv := map[TokenValue := TextValue(token.value)];
    assert tokens[i] == token;
    assert TokenValue in kv;
    forall k | 0 <= k < |tokens| && k != i ensures !Matches(TokenField, kv, tokens[k]) {
      assert tokens[k].value != tokens[i].value;
    }
    SelectUnique(tokens, TokenField, kv, i);
  }
}

=== FILE: client.dfy ===
/** The client over its store: the session's rows of each kind, created,
    updated and liquidated in place. */
module Client {
  import opened Results
  import opened Query
  import opened Entities
  import opened Reports
  import opened Auth

  /** Whether some stored company already has this name (the unique constraint). */
  predicate NameTaken(companies: seq<Company>, name: string) {
    exists c :: c in companies && c.name == name
  }

  predicate UserNameTaken(users: seq<User>, name: string) {
    exists u :: u in users && u.name == name
  }

  /** Whether a company other than company `id` has this name. */
  predicate NameHeldByOther(companies: seq<Company>, id: nat, name: string) {
    exists i :: 0 <= i < |companies| && i != id - 1 && companies[i].name == name
  }

  /** No two companies share a name (the unique name column). */
  ghost predicate DistinctCompanyNames(companies: seq<Company>) {
    forall i, j :: 0 <= i < j < |companies| ==> companies[i].name != companies[j].name
  }

  /** Replacing a company by one whose name no other company has keeps names unique. */
  lemma RenameKeepsDistinct(companies: seq<Company>, id: nat, c: Company)
    requires DistinctCompanyNames(companies) && 1 <= id <= |companies|
    requires !NameHeldByOther(companies, id, c.name)
    ensures DistinctCompanyNames(companies[id - 1 := c])
  {
  }

  class Store {
    /** The password digest (SHA-256 in the source), taken as given. */
    const hash: string -> string

    var companies: seq<Company>
    var bills: seq<Bill>
    var users: seq<User>
    var tokens: seq<Token>

    /** Ids are autoincrement positions, every bill belongs to a stored company,
        every user holds the token created with it, and company names and user
        names are unique. */
    ghost predicate Valid()
      reads this
    {
      (forall i :: 0 <= i < |companies| ==> companies[i].id == i + 1) &&
      (forall i :: 0 <= i < |bills| ==> bills[i].id == i + 1 && 1 <= bills[i].companyId <= |companies|) &&
      Linked(users, tokens) &&
      DistinctCompanyNames(companies) && DistinctNames(users)
    }

    constructor (hash: string -> string)
      ensures Valid() && this.hash == hash
      ensures companies == [] && bills == [] && users == [] && tokens == []
    {
      this.hash := hash;
      companies, bills, users, tokens := [], [], [], [];
    }

    predicate HasCompany(id: nat)
      reads this
    {
      1 <= id <= |companies|
    }

    /** `_create(Company, **kv)`: builds the row and commits it; the commit
        fails on a missing required column or a name already in use. */
    method CreateCompany(kv: map<CompanyColumn, Value>) returns (r: Result<Company>)
      requires Valid() && WellTyped(kv)
      modifies this
      ensures Valid()
      ensures bills == old(bills) && users == old(users) && tokens == old(tokens)
      ensures r.Ok? <==> HasRequired(kv) && !NameTaken(old(companies), kv[Name].s)
      ensures r.Err? ==> companies == old(companies)
      ensures r.Err? ==> r.error == (if HasRequired(kv) then UniqueViolation else NotNullViolation)
      ensures r.Ok? ==> r == NewCompany(|old(companies)| + 1, kv) && companies == old(companies) + [r.value]
    {
      r := NewCompany(|companies| + 1, kv);
      if r.Ok? && NameTaken(companies, r.value.name) {
        r := Err(UniqueViolation);
      }
      if r.Ok? {
        companies := companies + [r.value];
      }
    }

    /** `update(obj, **kv)` on a stored company: sets each named column in
        turn and leaves every other column, and every other row, as it was.
        A name another company already has breaks the unique name column, and
        the change is refused as a whole. */
    method Update(id: nat, kv: map<CompanyColumn, Value>) returns (r: Result<Company>)
      requires Valid() && HasCompany(id) && WellTyped(kv)
      modifies this
      ensures Valid()
      ensures r.Err? <==> Name in kv && NameHeldByOther(old(companies), id, kv[Name].s)
      ensures r.Err? ==> r.error == UniqueViolation && companies == old(companies)
      ensures r.Ok? ==> r.value == Assign(old(companies[id - 1]), kv) && companies == old(companies)[id - 1 := r.value]
      ensures bills == old(bills) && users == old(users) && tokens == old(tokens)
    {
      var c := companies[id - 1];
      var pending := kv.Keys;
      while pending != {}
        invariant pending <= kv.Keys
        invariant c.id == id
        invariant forall col :: (CompanyField(c, col) ==
                                 if col in kv && col !in pending then kv[col]
                                 else CompanyField(old(companies[id - 1]), col))
        decreases pending
      {
        var col :| col in pending;
        c := SetField(c, col, kv[col]);
        pending := pending - {col};
      }
      CompanyExtensional(c, Assign(old(companies[id - 1]), kv));
      if NameHeldByOther(companies, id, c.name) {
        return Err(UniqueViolation);
      }
      RenameKeepsDistinct(companies, id, c);
      companies := companies[id - 1 := c];
      r := Ok(c);
    }

    /** `_get_or_create(Company, **kv)`: the first company that passes the
        filters, or a new one built from them. */
    method GetOrCreateCompany(kv: map<CompanyColumn, Value>) returns (r: Result<Company>)
      requires Valid() && WellTyped(kv)
      modifies this
      ensures Valid()
      ensures bills == old(bills) && users == old(users) && tokens == old(tokens)
      ensures Select(old(companies), CompanyField, kv) != [] ==>
        r == Ok(Select(old(companies), CompanyField, kv)[0]) && companies == old(companies)
      ensures Select(old(companies), CompanyField, kv) == [] ==>
        (r.Ok? <==> HasRequired(kv) && !NameTaken(old(companies), kv[Name].s))
      ensures Select(old(companies), CompanyField, kv) == [] && r.Ok? ==>
        r == NewCompany(|old(companies)| + 1, kv) && companies == old(companies) + [r.value] &&
        Matches(CompanyField, kv, r.value)
      ensures r.Err? ==> companies == old(companies)
      ensures r.Err? ==> r.error == (if HasRequired(kv) then UniqueViolation else NotNullViolation)
    {
      var found := Select(companies, CompanyField, kv);
      if found == [] {
        r := CreateCompany(kv);
      } else {
        r := Ok(found[0]);
      }
    }

    /** `create_user`: stores the user with the hash of the password and
        creates the one token linked to it, whose value the caller supplies
        (a fresh random identifier in the source). */
    method CreateUser(name: string, password: string, tokenValue: string) returns (r: Result<User>)
      requires Valid()
      modifies this
      ensures Valid()
      ensures companies == old(companies) && bills == old(bills)
      ensures r.Ok? <==> !UserNameTaken(old(users), name)
      ensures r.Ok? ==> r.value == User(|old(users)| + 1, name, hash(password))
      ensures r.Ok? ==> users == old(users) + [r.value]
      ensures r.Ok? ==> tokens == old(tokens) + [Token(|old(tokens)| + 1, tokenValue, r.value.id)]
      ensures r.Err? ==> r.error == UniqueViolation && users == old(users) && tokens == old(tokens)
    {
      var digest := hash(password);
      if UserNameTaken(users, name) {
        return Err(UniqueViolation);
      }
      var user := User(|users| + 1, name, digest);
      users := users + [user];
      tokens := tokens + [Token(|tokens| + 1, tokenValue, user.id)];
      r := Ok(user);
    }

    /** `liquidate_bill`: snapshots the excess over the limit, advances the
        last reading to the current one, and appends one bill for the period,
        as a single step. */
    method LiquidateBill(id: nat, date: int) returns (bill: Bill)
      requires Valid() && HasCompany(id)
      modifies this
      ensures Valid()
      ensures var c := old(companies[id - 1]);
        && companies == old(companies)[id - 1 := c.(lastReading := c.reading)]
        && bill == Bill(|old(bills)| + 1, id, date, c.reading, OverLimit(c))
        && bills == old(bills) + [bill]
      ensures users == old(users) && tokens == old(tokens)
      ensures ListAlerts(bills, id) == ListAlerts(old(bills), id) + (if bill.overLimit > 0 then [bill] else [])
    {
      var company := companies[id - 1];
      var overLimit := OverLimit(company);
      var result := Update(id, map[LastReading := IntValue(company.reading)]);
      var updated := result.value;
      assert updated == company.(lastReading := company.reading) by {
        CompanyExtensional(updated, company.(lastReading := company.reading));
      }
      bill := Bill(|bills| + 1, id, date, updated.reading, overLimit);
      ListAlertsAppend(bills, bill, id);
      bills := bills + [bill];
    }
  }
}

=== FILE: entities.dfy ===
/** The records of the store (db.py) and the billing arithmetic of a branch
    (`Sucursal.calculate` and `Sucursal.over_limit`). */
module Entities {
  import opened Results
  import opened Query

  /** Column defaults of a branch: surcharge percentage and flat surcharge. */
  const DefaultExtraPercent := 15
  const DefaultExtra := 20

  /** A branch/company: the identity columns and the five fields the billing
      methods read. `id` is the autoincrement primary key. */
  datatype Company = Company(
    id: nat,
    name: string,
    lastReading: int,
    reading: int,
    limit: int,
    extraPercent: int,
    extra: int)

  /** A bill: a snapshot taken when a period is liquidated. */
  datatype Bill = Bill(id: nat, companyId: nat, date: int, reading: int, overLimit: int)

  /** A user; `password` holds the hash of the password, never the password. */
  datatype User = User(id: nat, name: string, password: string)

  /** A session token, linked to its user by `userId`. */
  datatype Token = Token(id: nat, value: string, userId: nat)

  // ---------------------------------------------------------------------------
  // Billing arithmetic

  /** `calculate`: the consumption of the period, raised by `extraPercent`
      percent and rounded down, plus the flat `extra`. */
  function Calculate(c: Company): (r: int)
    ensures (r - c.extra) * 100 <= (c.reading - c.lastReading) * (100 + c.extraPercent)
    ensures (c.reading - c.lastReading) * (100 + c.extraPercent) < (r - c.extra + 1) * 100
  {
    (c.reading - c.lastReading) * (100 + c.extraPercent) / 100 + c.extra
  }

  /** `over_limit`: by how much the reading exceeds the limit, never negative. */
  function OverLimit(c: Company): (r: int)
    ensures r >= 0
    ensures r == 0 <==> c.reading <= c.limit
    ensures c.reading > c.limit ==> r == c.reading - c.limit
  {
    if c.reading - c.limit > 0 then c.reading - c.limit else 0
  }

  /** A period with consumption and a non-negative surcharge costs at least the flat extra. */
  lemma ChargeAtLeastExtra(c: Company)
    requires c.reading >= c.lastReading && c.extraPercent >= 0
    ensures Calculate(c) >= c.extra
  {
    var delta := c.reading - c.lastReading;
    assert delta * (100 + c.extraPercent) >= 0 by {
      assert 100 + c.extraPercent >= 0;
    }
  }

  /** A period without consumption costs exactly the flat extra. */
  lemma ChargeWithoutConsumption(c: Company)
    requires c.reading == c.lastReading
    ensures Calculate(c) == c.extra
  {
  }

  /** With the column defaults the charge is `delta * 115 / 100 + 20`. */
  lemma DefaultCharge(c: Company)
    requires c.extraPercent == DefaultExtraPercent && c.extra == DefaultExtra
    ensures Calculate(c) == (c.reading - c.lastReading) * 115 / 100 + 20
  {
  }

  /** The charge never falls when the reading rises. */
  lemma ChargeMonotone(c: Company, reading: int)
    requires reading >= c.reading && c.extraPercent >= -100
    ensures Calculate(c.(reading := reading)) >= Calculate(c)
  {
    var d := c.reading - c.lastReading;
    var d' := reading - c.lastReading;
    var k := 100 + c.extraPercent;
    assert d' * k >= d * k by {
      assert (d' - d) * k >= 0;
    }
  }

  /** Raising the reading never lowers the excess over the limit. */
  lemma OverLimitMonotone(c: Company, reading: int)
    requires reading >= c.reading
    ensures OverLimit(c.(reading := reading)) >= OverLimit(c)
  {
  }

  // ---------------------------------------------------------------------------
  // Columns of a company, as filters and updates name them

  datatype CompanyColumn = Name | LastReading | Reading | Limit | ExtraPercent | Extra

  function CompanyField(c: Company, col: CompanyColumn): Value {
    match col
    case Name => TextValue(c.name)
    case LastReading => IntValue(c.lastReading)
    case Reading => IntValue(c.reading)
    case Limit => IntValue(c.limit)
    case ExtraPercent => IntValue(c.extraPercent)
    case Extra => IntValue(c.extra)
  }

  /** The value has the type of the column: text for the name, integers otherwise. */
  predicate Fits(col: CompanyColumn, v: Value) {
    if col == Name then v.TextValue? else v.IntValue?
  }

  predicate WellTyped(kv: map<CompanyColumn, Value>) {
    forall col :: col in kv ==> Fits(col, kv[col])
  }

  /** Two companies with the same id that agree on every column are the same. */
  lemma CompanyExtensional(a: Company, b: Company)
    requires a.id == b.id
    requires forall col :: CompanyField(a, col) == CompanyField(b, col)
    ensures a == b
  {
    assert CompanyField(a, Name) == CompanyField(b, Name);
    assert CompanyField(a, LastReading) == CompanyField(b, LastReading);
    assert CompanyField(a, Reading) == CompanyField(b, Reading);
    assert CompanyField(a, Limit) == CompanyField(b, Limit);
    assert CompanyField(a, ExtraPercent) == CompanyField(b, ExtraPercent);
    assert CompanyField(a, Extra) == CompanyField(b, Extra);
  }

  /** `setattr(obj, k, v)` for one column. */
  function SetField(c: Company, col: CompanyColumn, v: Value): (r: Company)
    requires Fits(col, v)
    ensures r.id == c.id
    ensures CompanyField(r, col) == v
    ensures forall other :: other != col ==> CompanyField(r, other) == CompanyField(c, other)
  {
    match col
    case Name => c.(name := v.s)
    case LastReading => c.(lastReading := v.n)
    case Reading => c.(reading := v.n)
    case Limit => c.(limit := v.n)
    case ExtraPercent => c.(extraPercent := v.n)
    case Extra => c.(extra := v.n)
  }

  /** The company with every column named in `kv` set to its value. */
  function Assign(c: Company, kv: map<CompanyColumn, Value>): (r: Company)
    requires WellTyped(kv)
    ensures r.id == c.id
    ensures forall col :: CompanyField(r, col) == if col in kv then kv[col] else CompanyField(c, col)
  {
    Company(
      c.id,
      if Name in kv then kv[Name].s else c.name,
      if LastReading in kv then kv[LastReading].n else c.lastReading,
      if Reading in kv then kv[Reading].n else c.reading,
      if Limit in kv then kv[Limit].n else c.limit,
      if ExtraPercent in kv then kv[ExtraPercent].n else c.extraPercent,
      if Extra in kv then kv[Extra].n else c.extra)
  }

  /** The columns without a default that a new company must be given. */
  predicate HasRequired(kv: map<CompanyColumn, Value>) {
    Name in kv && LastReading in kv && Reading in kv && Limit in kv
  }

  /** `Company(**kv)` as the commit sees it: the given columns, the defaults for
      the surcharges, and a NOT NULL failure when a required column is missing. */
  function NewCompany(id: nat, kv: map<CompanyColumn, Value>): (r: Result<Company>)
    requires WellTyped(kv)
    ensures r.Ok? <==> HasRequired(kv)
    ensures r.Err? ==> r.error == NotNullViolation
    ensures r.Ok? ==> r.value.id == id && Matches(CompanyField, kv, r.value)
    ensures r.Ok? && ExtraPercent !in kv ==> r.value.extraPercent == DefaultExtraPercent
    ensures r.Ok? && Extra !in kv ==> r.value.extra == DefaultExtra
  {
    if HasRequired(kv)
    then Ok(Assign(Company(id, "", 0, 0, 0, DefaultExtraPercent, DefaultExtra), kv))
    else Err(NotNullViolation)
  }
}

=== FILE: query.dfy ===
/** The query layer of the client: equality filters over the rows of one
    kind, kept in store order, and the `.one()` terminal. */
module Query {
  import opened Results

  /** A column value as a filter or an update names it. */
  datatype Value = IntValue(n: int) | TextValue(s: string)

  /** The elements of `s` that satisfy `p`, in their order in `s`. */
  function Filter<T(!new)>(s: seq<T>, p: T -> bool): (r: seq<T>)
    ensures |r| <= |s|
    ensures forall x :: x in r <==> x in s && p(x)
  {
    if s == [] then [] else (if p(s[0]) then [s[0]] else []) + Filter(s[1..], p)
  }

  /** Filtering distributes over concatenation: the result keeps store order. */
  lemma {:induction false} FilterAppend<T(!new)>(a: seq<T>, b: seq<T>, p: T -> bool)
    ensures Filter(a + b, p) == Filter(a, p) + Filter(b, p)
  {
    if a == [] {
      assert a + b == b;
    } else {
      assert (a + b)[1..] == a[1..] + b;
      FilterAppend(a[1..], b, p);
    }
  }

  /** A filter that every element passes returns the whole sequence. */
  lemma {:induction false} FilterKeepsAll<T(!new)>(s: seq<T>, p: T -> bool)
    requires forall i :: 0 <= i < |s| ==> p(s[i])
    ensures Filter(s, p) == s
  {
    if s != [] {
      FilterKeepsAll(s[1..], p);
    }
  }

  /** Filtering twice by the same predicate is filtering once. */
  lemma {:induction false} FilterIdempotent<T(!new)>(s: seq<T>, p: T -> bool)
    ensures Filter(Filter(s, p), p) == Filter(s, p)
  {
    var r := Filter(s, p);
    forall i | 0 <= i < |r| ensures p(r[i]) {
      assert r[i] in r;
    }
    FilterKeepsAll(r, p);
  }

  /** Two filters may be applied in either order. */
  lemma {:induction false} FilterCommute<T(!new)>(s: seq<T>, p: T -> bool, q: T -> bool)
    ensures Filter(Filter(s, p), q) == Filter(Filter(s, q), p)
  {
    if s != [] {
      var x := s[0];
      var hp: seq<T> := if p(x) then [x] else [];
      var hq: seq<T> := if q(x) then [x] else [];
      FilterAppend(hp, Filter(s[1..], p), q);
      FilterAppend(hq, Filter(s[1..], q), p);
      FilterCommute(s[1..], p, q);
    }
  }

  /** A row passes the equality filters `kv` when every named column holds the given value. */
  predicate Matches<R, C>(column: (R, C) -> Value, kv: map<C, Value>, row: R) {
    forall c :: c in kv ==> column(row, c) == kv[c]
  }

  /** `_get(Obj, **kv)`: the rows of one kind that pass every equality filter, in store order. */
  function Select<R(!new), C>(rows: seq<R>, column: (R, C) -> Value, kv: map<C, Value>): (r: seq<R>)
    ensures forall x :: x in r <==> x in rows && Matches(column, kv, x)
    ensures kv == map[] ==> r == rows
  {
    var p := row => Matches(column, kv, row);
    if kv == map[] then FilterKeepsAll(rows, p); Filter(rows, p) else Filter(rows, p)
  }

  /** Selecting from a longer store selects from each part, in order. */
  lemma SelectAppend<R(!new), C>(a: seq<R>, b: seq<R>, column: (R, C) -> Value, kv: map<C, Value>)
    ensures Select(a + b, column, kv) == Select(a, column, kv) + Select(b, column, kv)
  {
    FilterAppend(a, b, row => Matches(column, kv, row));
  }

  /** A row added to the store is selected last exactly when it passes the
      filters; an empty store selects nothing. */
  lemma SelectSnoc<R(!new), C>(rows: seq<R>, x: R, column: (R, C) -> Value, kv: map<C, Value>)
    ensures Select([], column, kv) == []
    ensures Select(rows + [x], column, kv) ==
      Select(rows, column, kv) + (if Matches(column, kv, x) then [x] else [])
  {
    SelectAppend(rows, [x], column, kv);
    assert [x][1..] == [];
  }

  /** A filter that no element passes returns nothing. */
  lemma {:induction false} FilterNone<T(!new)>(s: seq<T>, p: T -> bool)
    requires forall j :: 0 <= j < |s| ==> !p(s[j])
    ensures Filter(s, p) == []
  {
    if s != [] {
      FilterNone(s[1..], p);
    }
  }

  /** When no row passes the filters, the query returns nothing. */
  lemma SelectNone<R(!new), C>(rows: seq<R>, column: (R, C) -> Value, kv: map<C, Value>)
    requires forall j :: 0 <= j < |rows| ==> !Matches(column, kv, rows[j])
    ensures Select(rows, column, kv) == []
  {
    FilterNone(rows, row => Matches(column, kv, row));
  }

  /** When exactly the element at `i` passes, the filter returns it alone. */
  lemma {:induction false} FilterUnique<T(!new)>(s: seq<T>, p: T -> bool, i: nat)
    requires i < |s| && p(s[i])
    requires forall j :: 0 <= j < |s| && j != i ==> !p(s[j])
    ensures Filter(s, p) == [s[i]]
  {
    if i == 0 {
      FilterNone(s[1..], p);
    } else {
      FilterUnique(s[1..], p, i - 1);
    }
  }

  /** When exactly the row at `i` passes the filters, the query returns it alone. */
  lemma SelectUnique<R(!new), C>(rows: seq<R>, column: (R, C) -> Value, kv: map<C, Value>, i: nat)
    requires i < |rows| && Matches(column, kv, rows[i])
    requires forall j :: 0 <= j < |rows| && j != i ==> !Matches(column, kv, rows[j])
    ensures Select(rows, column, kv) == [rows[i]]
  {
    FilterUnique(rows, row => Matches(column, kv, row), i);
  }

  /** `.one()`: the single row of a query, or the error raised for zero or several rows. */
  function One<R>(rows: seq<R>): (r: Result<R>)
    ensures r.Ok? <==> |rows| == 1
    ensures r.Ok? ==> r.value == rows[0] && r.value in rows
    ensures r == Err(NotFound) <==> rows == []
    ensures r == Err(MultipleResultsFound) <==> |rows| > 1
  {
    if rows == [] then Err(NotFound)
    else if |rows| > 1 then Err(MultipleResultsFound)
    else Ok(rows[0])
  }

  /** The first element of `s` that satisfies `p`, if any. */
  function FirstWhere<T(!new)>(s: seq<T>, p: T -> bool): (r: Option<T>)
    ensures r.Some? ==> r.value in s && p(r.value)
    ensures r.None? <==> forall x :: x in s ==> !p(x)
  {
    if s == [] then None else if p(s[0]) then Some(s[0]) else FirstWhere(s[1..], p)
  }
}

=== FILE: reports.dfy ===
/** The consumption reports of the client, read-only queries over the bills:
    total, average and predicted consumption, over-consumption, date-range
    comparison and alerts. */
module Reports {
  import opened Results
  import opened Query
  import opened Entities

  datatype BillColumn = CompanyId | Date | BillReading | BillOverLimit

  function BillField(b: Bill, col: BillColumn): Value {
    match col
    case CompanyId => IntValue(b.companyId)
    case Date => IntValue(b.date)
    case BillReading => IntValue(b.reading)
    case BillOverLimit => IntValue(b.overLimit)
  }

  /** The filter `over_limit > 0`. */
  predicate IsAlert(b: Bill) {
    b.overLimit > 0
  }

  /** Dates are timestamps in seconds. */
  const SecondsPerDay := 86400

  /** `(end - start).days`: the whole days of the span, rounded down as a
      time delta's day count is (a span one second short of a day counts 0
      days, one second before the start counts -1). */
  function Days(start: int, end: int): (r: int)
    ensures r * SecondsPerDay <= end - start < (r + 1) * SecondsPerDay
  {
    (end - start) / SecondsPerDay
  }

  /** `days // 30`: whole 30-day months, rounded down. */
  function Months(start: int, end: int): (r: int)
    ensures r * 30 <= Days(start, end) < (r + 1) * 30
    ensures r == 0 <==> 0 <= Days(start, end) < 30
  {
    Days(start, end) / 30
  }

  /** The equality filters on a bill's company, and on its company and date. */
  lemma MatchesCompany(b: Bill, companyId: nat)
    ensures Matches(BillField, map[CompanyId := IntValue(companyId)], b) <==> b.companyId == companyId
  {
    assert CompanyId in map[CompanyId := IntValue(companyId)];
  }

  lemma MatchesCompanyDate(b: Bill, companyId: nat, date: int)
    ensures Matches(BillField, map[Date := IntValue(date), CompanyId := IntValue(companyId)], b)
      <==> b.companyId == companyId && b.date == date
  {
    var kv := map[Date := IntValue(date), CompanyId := IntValue(companyId)];
    assert CompanyId in kv && Date in kv;
  }

  /** `_get(Bill, date=date, company_id=companyId)`. */
  function BillsAt(bills: seq<Bill>, companyId: nat, date: int): (r: seq<Bill>)
    ensures forall b :: b in r <==> b in bills && b.companyId == companyId && b.date == date
  {
    var r := Select(bills, BillField, map[Date := IntValue(date), CompanyId := IntValue(companyId)]);
    assert forall b :: (Matches(BillField, map[Date := IntValue(date), CompanyId := IntValue(companyId)], b)
                        <==> b.companyId == companyId && b.date == date) by {
      forall b { MatchesCompanyDate(b, companyId, date); }
    }
    r
  }

  /** A bill added to the store is found last exactly when it is the
      company's bill on that date, so each bill is counted once. */
  lemma BillsAtAppend(bills: seq<Bill>, b: Bill, companyId: nat, date: int)
    ensures BillsAt([], companyId, date) == []
    ensures BillsAt(bills + [b], companyId, date) ==
      BillsAt(bills, companyId, date) + (if b.companyId == companyId && b.date == date then [b] else [])
  {
    SelectSnoc(bills, b, BillField, map[Date := IntValue(date), CompanyId := IntValue(companyId)]);
    MatchesCompanyDate(b, companyId, date);
  }

  /** The company has exactly one bill on that date. */
  predicate UniqueAt(bills: seq<Bill>, companyId: nat, date: int) {
    |BillsAt(bills, companyId, date)| == 1
  }

  /** `total_consumption`: the reading on the bill at `end` minus the reading
      on the bill at `start`; each date must hold exactly one bill of the
      company (`.one()`), the start date being looked up first. */
  function TotalConsumption(bills: seq<Bill>, companyId: nat, start: int, end: int): (r: Result<int>)
    ensures r.Ok? <==> UniqueAt(bills, companyId, start) && UniqueAt(bills, companyId, end)
    ensures r.Ok? ==> forall s, e ::
      s in BillsAt(bills, companyId, start) && e in BillsAt(bills, companyId, end) ==> r.value == e.reading - s.reading
    ensures r == Err(NotFound) <==>
      BillsAt(bills, companyId, start) == [] ||
      (UniqueAt(bills, companyId, start) && BillsAt(bills, companyId, end) == [])
    ensures r.Err? ==> r.error == NotFound || r.error == MultipleResultsFound
  {
    match One(BillsAt(bills, companyId, start))
    case Err(e) => Err(e)
    case Ok(s) =>
      match One(BillsAt(bills, companyId, end))
      case Err(e) => Err(e)
      case Ok(e) => Ok(e.reading - s.reading)
  }

  /** Totals over adjacent spans add up, whatever the order of the dates. */
  lemma TotalAdditive(bills: seq<Bill>, companyId: nat, d1: int, d2: int, d3: int)
    requires TotalConsumption(bills, companyId, d1, d2).Ok?
    requires TotalConsumption(bills, companyId, d2, d3).Ok?
    ensures TotalConsumption(bills, companyId, d1, d3) ==
      Ok(TotalConsumption(bills, companyId, d1, d2).value + TotalConsumption(bills, companyId, d2, d3).value)
  {
  }

  /** `average_consumption`: the total divided by the whole months of the span.
      The month count is taken first, the total is looked up next (its failure
      wins), and a zero month count is a division by zero. */
  function AverageConsumption(bills: seq<Bill>, companyId: nat, start: int, end: int): (r: Result<real>)
    ensures TotalConsumption(bills, companyId, start, end).Err? ==>
      r == Err(TotalConsumption(bills, companyId, start, end).error)
    ensures r == Err(DivisionByZero) <==>
      TotalConsumption(bills, companyId, start, end).Ok? && 0 <= Days(start, end) < 30
    ensures TotalConsumption(bills, companyId, start, end).Ok? && Months(start, end) != 0 ==> r.Ok?
    ensures r.Ok? ==>
      Months(start, end) != 0 &&
      r.value * Months(start, end) as real == TotalConsumption(bills, companyId, start, end).value as real
  {
    var months := Months(start, end);
    var total := TotalConsumption(bills, companyId, start, end);
    if total.Err? then Err(total.error)
    else if months == 0 then Err(DivisionByZero)
    else Ok(total.value as real / months as real)
  }

  /** `predict_consumption`: no forecast, the average itself. */
  function PredictConsumption(bills: seq<Bill>, companyId: nat, start: int, end: int): (r: Result<real>)
    ensures r == AverageConsumption(bills, companyId, start, end)
  {
    AverageConsumption(bills, companyId, start, end)
  }

  /** `over_consumption`: every bill over its limit, of any company; the dates
      are accepted and not used. */
  function OverConsumption(bills: seq<Bill>, start: int, end: int): (r: seq<Bill>)
    ensures forall b :: b in r <==> b in bills && b.overLimit > 0
  {
    var noFilter: map<BillColumn, Value> := map[];
    Filter(Select(bills, BillField, noFilter), IsAlert)
  }

  /** The dates given to `over_consumption` do not change its result. */
  lemma OverConsumptionIgnoresDates(bills: seq<Bill>, s1: int, e1: int, s2: int, e2: int)
    ensures OverConsumption(bills, s1, e1) == OverConsumption(bills, s2, e2)
  {
  }

  /** The filters `date >= start` and `date <= end`. */
  function AtOrAfter(start: int): Bill -> bool {
    (b: Bill) => b.date >= start
  }

  function AtOrBefore(end: int): Bill -> bool {
    (b: Bill) => b.date <= end
  }

  /** The over-consumption report of an empty store is empty; a bill added to
      the store leaves the earlier report as it was and is listed last exactly
      when it is over its limit. With the empty case this fixes the report as
      the over-limit bills in store order, each once. */
  lemma {:induction false} OverConsumptionAppend(bills: seq<Bill>, b: Bill, start: int, end: int)
    ensures OverConsumption([], start, end) == []
    ensures OverConsumption(bills + [b], start, end) ==
      OverConsumption(bills, start, end) + (if b.overLimit > 0 then [b] else [])
  {
    var noFilter: map<BillColumn, Value> := map[];
    assert Select(bills + [b], BillField, noFilter) == bills + [b];
    assert Select(bills, BillField, noFilter) == bills;
    FilterAppend(bills, [b], IsAlert);
    assert [b][1..] == [];
  }

  /** `compare_consumption`: the bills dated within `[start, end]`, both ends
      included, of any company, in store order. */
  function CompareConsumption(bills: seq<Bill>, start: int, end: int): (r: seq<Bill>)
    ensures forall b :: b in r <==> b in bills && start <= b.date <= end
    ensures end < start ==> r == []
  {
    var noFilter: map<BillColumn, Value> := map[];
    var r := Filter(Filter(Select(bills, BillField, noFilter), AtOrAfter(start)), AtOrBefore(end));
    assert r != [] ==> r[0] in r;
    r
  }

  /** The same for the date-range comparison: an added bill is listed last
      exactly when its date lies within the range, and nothing before it moves. */
  lemma {:induction false} CompareConsumptionAppend(bills: seq<Bill>, b: Bill, start: int, end: int)
    ensures CompareConsumption([], start, end) == []
    ensures CompareConsumption(bills + [b], start, end) ==
      CompareConsumption(bills, start, end) + (if start <= b.date <= end then [b] else [])
  {
    var noFilter: map<BillColumn, Value> := map[];
    assert Select(bills + [b], BillField, noFilter) == bills + [b];
    assert Select(bills, BillField, noFilter) == bills;
    assert [b][1..] == [];
    FilterAppend(bills, [b], AtOrAfter(start));
    var from := Filter(bills, AtOrAfter(start));
    var last := Filter([b], AtOrAfter(start));
    assert last == if b.date >= start then [b] else [];
    FilterAppend(from, last, AtOrBefore(end));
    assert last != [] ==> last[1..] == [];
  }

  /** `list_alerts`: the bills of one company that are over its limit. */
  function ListAlerts(bills: seq<Bill>, companyId: nat): (r: seq<Bill>)
    ensures forall b :: b in r <==> b in bills && b.companyId == companyId && b.overLimit > 0
  {
    var r := Filter(Select(bills, BillField, map[CompanyId := IntValue(companyId)]), IsAlert);
    assert forall b :: Matches(BillField, map[CompanyId := IntValue(companyId)], b) <==> b.companyId == companyId by {
      forall b { MatchesCompany(b, companyId); }
    }
    r
  }

  /** The alerts of a company are the over-consumption bills that belong to it,
      in the same order. */
  lemma {:induction false} AlertsAreOverConsumption(bills: seq<Bill>, companyId: nat, start: int, end: int)
    ensures ListAlerts(bills, companyId) ==
      Filter(OverConsumption(bills, start, end), b => Matches(BillField, map[CompanyId := IntValue(companyId)], b))
  {
    FilterCommute(bills, b => Matches(BillField, map[CompanyId := IntValue(companyId)], b), IsAlert);
  }

  /** Asking again over the result of an alert query returns the same bills:
      an alert query is idempotent. */
  lemma {:induction false} AlertQueriesIdempotent(bills: seq<Bill>, companyId: nat, start: int, end: int)
    ensures OverConsumption(OverConsumption(bills, start, end), start, end) == OverConsumption(bills, start, end)
    ensures ListAlerts(ListAlerts(bills, companyId), companyId) == ListAlerts(bills, companyId)
  {
    FilterIdempotent(bills, IsAlert);
    var p := b => Matches(BillField, map[CompanyId := IntValue(companyId)], b);
    var mine := Filter(bills, p);
    var alerts := Filter(mine, IsAlert);
    FilterCommute(alerts, p, IsAlert);
    FilterIdempotent(mine, IsAlert);
    forall i | 0 <= i < |alerts| ensures p(alerts[i]) {
      assert alerts[i] in alerts;
    }
    FilterKeepsAll(alerts, p);
  }

  /** A bill added to the store leaves the earlier alerts as they were and is
      itself listed last exactly when it is an alert of the company. */
  lemma {:induction false} ListAlertsAppend(bills: seq<Bill>, b: Bill, companyId: nat)
    ensures ListAlerts(bills + [b], companyId) ==
      ListAlerts(bills, companyId) + (if b.companyId == companyId && b.overLimit > 0 then [b] else [])
  {
    var kv := map[CompanyId := IntValue(companyId)];
    SelectAppend(bills, [b], BillField, kv);
    FilterAppend(Select(bills, BillField, kv), Select([b], BillField, kv), IsAlert);
    assert Select([b], BillField, kv) == Filter([b], row => Matches(BillField, kv, row));
    assert [b][1..] == [];
    MatchesCompany(b, companyId);
    assert Filter([b], row => Matches(BillField, kv, row)) == (if b.companyId == companyId then [b] else []);
  }
}

=== FILE: results.dfy ===
/** Failure values for the client's operations: the exceptions the ORM and the
    arithmetic raise on the paths the model follows. */
module Results {

  datatype Error =
    | NotFound              // `.one()` found no row
    | MultipleResultsFound  // `.one()` found more than one row
    | UniqueViolation       // the commit was refused: a unique column already holds the value
    | NotNullViolation      // the commit was refused: a NOT NULL column was left empty
    | DivisionByZero        // an average over a span of 0 to 29 days

  datatype Result<+T> = Ok(value: T) | Err(error: Error)

  datatype Option<+T> = None | Some(value: T)
}

=== FILE: scenarios.dfy ===
/** The client's unit tests (test/test_db.py) as clients of the store:
    each returns what the test inspects, and its contract is the test's
    expectation (the login scenario states one more, marked there). */
module Scenarios {
  import opened Results
  import opened Query
  import opened Entities
  import opened Reports
  import opened Auth
  import opened Client

  /** 2000-10-01, 2000-10-02 and 2000-10-03 at midnight, in seconds. */
  const October1 := 970358400
  const October2 := October1 + SecondsPerDay
  const October3 := October2 + SecondsPerDay

  /** A stand-in digest for the tests: any function of the password will do. */
  function Digest(password: string): string {
    "#" + password
  }

  method NewBranch(store: Store, lastReading: int, reading: int, limit: int) returns (id: nat)
    requires store.Valid() && store.companies == []
    modifies store
    ensures store.Valid() && id == 1 && |store.companies| == 1
    ensures store.companies[0] == Company(1, "blobcorp", lastReading, reading, limit, DefaultExtraPercent, DefaultExtra)
    ensures store.bills == old(store.bills)
  {
    var r := store.CreateCompany(map[Name := TextValue("blobcorp"), LastReading := IntValue(lastReading),
                                     Reading := IntValue(reading), Limit := IntValue(limit)]);
    id := r.value.id;
  }

  /** test_liquidate_bill: a reading of 50 under a limit of 100 is not over
      the limit and becomes the last reading; a reading of 150 is 50 over. */
  method LiquidateScenario() returns (lastReading: int, firstOver: int, secondOver: int)
    ensures lastReading == 50 && firstOver == 0 && secondOver == 50
  {
    var store := new Store(Digest);
    var id := NewBranch(store, 0, 0, 100);
    var _ := store.Update(id, map[Reading := IntValue(50)]);
    var first := store.LiquidateBill(id, October1);
    lastReading := store.companies[id - 1].lastReading;
    var _ := store.Update(id, map[Reading := IntValue(150)]);
    var second := store.LiquidateBill(id, October2);
    firstOver, secondOver := first.overLimit, second.overLimit;
  }

  /** Sets the reading of company `id`, then liquidates it on `date`. */
  method LiquidateAt(store: Store, id: nat, reading: int, date: int) returns (bill: Bill)
    requires store.Valid() && store.HasCompany(id)
    modifies store
    ensures store.Valid() && |store.companies| == |old(store.companies)|
    ensures store.bills == old(store.bills) + [bill]
    ensures bill.companyId == id && bill.date == date && bill.reading == reading
  {
    var _ := store.Update(id, map[Reading := IntValue(reading)]);
    bill := store.LiquidateBill(id, date);
  }

  /** One bill a day for one company: the total is the difference of the
      first and last readings. */
  lemma ThreeDays(b1: Bill, b2: Bill, b3: Bill)
    requires b1.companyId == b2.companyId == b3.companyId
    requires b1.date == October1 && b2.date == October2 && b3.date == October3
    ensures TotalConsumption([b1, b2, b3], b1.companyId, October1, October3) == Ok(b3.reading - b1.reading)
  {
    var bills := [b1, b2, b3];
    var id := b1.companyId;
    var kv1 := map[Date := IntValue(October1), CompanyId := IntValue(id)];
    var kv3 := map[Date := IntValue(October3), CompanyId := IntValue(id)];
    forall j | 0 <= j < 3 ensures (j != 0 ==> !Matches(BillField, kv1, bills[j])) && (j != 2 ==> !Matches(BillField, kv3, bills[j])) {
      MatchesCompanyDate(bills[j], id, October1);
      MatchesCompanyDate(bills[j], id, October3);
    }
    MatchesCompanyDate(b1, id, October1);
    MatchesCompanyDate(b3, id, October3);
    SelectUnique(bills, BillField, kv1, 0);
    SelectUnique(bills, BillField, kv3, 2);
  }

  /** test_total_consumption: readings 150, 300 and 500 liquidated on three
      consecutive days consume 350 from the first to the last. */
  method TotalScenario() returns (total: Result<int>)
    ensures total == Ok(350)
  {
    var store := new Store(Digest);
    var id := NewBranch(store, 0, 100, 9999);
    var b1 := LiquidateAt(store, id, 150, October1);
    var b2 := LiquidateAt(store, id, 300, October2);
    var b3 := LiquidateAt(store, id, 500, October3);
    assert store.bills == [b1, b2, b3];
    ThreeDays(b1, b2, b3);
    total := TotalConsumption(store.bills, id, October1, October3);
  }

  /** test_over_consumption: a reading of 1 over a limit of 0 yields one bill,
      and it is the whole over-consumption report. */
  method OverConsumptionScenario() returns (bill: Bill, report: seq<Bill>)
    ensures report == [bill] && bill.overLimit == 1
  {
    var store := new Store(Digest);
    var id := NewBranch(store, 0, 1, 0);
    bill := store.LiquidateBill(id, October1);
    assert store.bills == [bill];
    FilterKeepsAll(store.bills, IsAlert);
    report := OverConsumption(store.bills, October1, October1);
  }

  /** test_login: the token returned by logging in is the created user's token.
      The refusal of a wrong password is an expectation added here; the test
      does not check it. */
  method LoginScenario() returns (user: Result<User>, token: Result<Option<Token>>, refused: Result<Option<Token>>)
    ensures user.Ok? && token.Ok? && token.value.Some? && token.value.value.userId == user.value.id
    ensures token == Ok(Some(Token(1, "a5b1e3d0-token", user.value.id)))
    ensures refused == Err(NotFound)
  {
    var store := new Store(Digest);
    user := store.CreateUser("blob", "doko", "a5b1e3d0-token");
    LoginAfterCreate([], [], Digest, "blob", "doko", "wrong", "a5b1e3d0-token");
    assert [] + [user.value] == store.users;
    token := Login(store.users, store.tokens, store.hash, "blob", "doko");
    refused := Login(store.users, store.tokens, store.hash, "blob", "wrong");
  }
}

=== FILE: table_names.dfy ===
/** The declarative base's table naming: a CamelCase class name becomes a
    snake_case table name (`Base.__tablename__` in db.py). */
module TableNames {

  /** The character class `[A-Z]` of the scanning pattern. */
  predicate IsUpper(c: char) {
    'A' <= c <= 'Z'
  }

  /** `str.lower` on one character, restricted to ASCII letters. */
  function Lower(c: char): (r: char)
    ensures IsUpper(c) ==> 'a' <= r <= 'z' && r as int - c as int == 32
    ensures !IsUpper(c) ==> r == c
  {
    if IsUpper(c) then (c as int + 32) as char else c
  }

  function LowerAll(s: string): (r: string)
    ensures |r| == |s|
    ensures forall i :: 0 <= i < |s| ==> r[i] == Lower(s[i])
  {
    seq(|s|, i requires 0 <= i < |s| => Lower(s[i]))
  }

  /** The part of the name the pattern scans: everything after the first character. */
  function Tail(s: string): string {
    if s == [] then [] else s[1..]
  }

  /** Number of characters of `t` that the pattern matches. */
  function CountUpper(t: string): nat {
    if t == [] then 0 else (if IsUpper(t[0]) then 1 else 0) + CountUpper(t[1..])
  }

  /** What one scanned character becomes: an uppercase letter gets `_` in front of it. */
  function Piece(c: char): string {
    if IsUpper(c) then ['_', c] else [c]
  }

  /** The scanned part with every underscore inserted. */
  function Marked(t: string): string {
    if t == [] then [] else Piece(t[0]) + Marked(t[1..])
  }

  /** The class name with the underscores inserted, before lowercasing. */
  function Underscored(s: string): string {
    if s == [] then [] else [s[0]] + Marked(s[1..])
  }

  /** The table name derived from class name `s`. */
  function TableName(s: string): string {
    LowerAll(Underscored(s))
  }

  lemma {:induction false} MarkedAppend(a: string, b: string)
    ensures Marked(a + b) == Marked(a) + Marked(b)
  {
    if a == [] {
      assert a + b == b;
    } else {
      assert (a + b)[1..] == a[1..] + b;
      MarkedAppend(a[1..], b);
    }
  }

  lemma {:induction false} CountUpperAppend(a: string, b: string)
    ensures CountUpper(a + b) == CountUpper(a) + CountUpper(b)
  {
    if a == [] {
      assert a + b == b;
    } else {
      assert (a + b)[1..] == a[1..] + b;
      CountUpperAppend(a[1..], b);
    }
  }

  lemma {:induction false} MarkedLength(t: string)
    ensures |Marked(t)| == |t| + CountUpper(t)
  {
    if t != [] {
      MarkedLength(t[1..]);
    }
  }

  /** The table name is as long as the class name plus one underscore per
      uppercase letter after the first character. */
  lemma TableNameLength(s: string)
    ensures |TableName(s)| == |s| + CountUpper(Tail(s))
  {
    if s != [] {
      MarkedLength(s[1..]);
    }
  }

  /** The first character is the lowercased first character of the class name:
      no underscore is put in front of it, whatever its case. */
  lemma TableNameHead(s: string)
    requires s != []
    ensures TableName(s)[0] == Lower(s[0])
    ensures TableName(s)[0] == '_' <==> s[0] == '_'
  {
  }

  /** Where character `i >= 1` of the class name lands: at position
      `i + CountUpper(s[1..i+1])`, lowercased, and when it is an uppercase letter
      the position right before it holds an inserted `_`. */
  lemma TableNameAt(s: string, i: nat)
    requires 1 <= i < |s|
    ensures i + CountUpper(s[1..i + 1]) < |TableName(s)|
    ensures TableName(s)[i + CountUpper(s[1..i + 1])] == Lower(s[i])
    ensures IsUpper(s[i]) ==> TableName(s)[i + CountUpper(s[1..i + 1]) - 1] == '_'
  {
    var t, k := s[1..], i - 1;
    var done, x, after := [s[0]] + Marked(t[..k]), t[k], Marked(t[k + 1..]);
    DoneStep(s[0], t, k);
    assert t[..k + 1] == s[1..i + 1];
    assert t == t[..k + 1] + t[k + 1..];
    MarkedAppend(t[..k + 1], t[k + 1..]);
    Regroup([s[0]], Marked(t[..k + 1]), after);
    PieceAt(done, x, after);
    var u := Underscored(s);
    assert u == done + Piece(x) + after;
    assert u[i + CountUpper(s[1..i + 1])] == x;
  }

  /** Where the piece of a character sits between what precedes and follows it. */
  lemma PieceAt(done: string, x: char, after: string)
    ensures IsUpper(x) ==> (done + Piece(x) + after)[|done|] == '_' && (done + Piece(x) + after)[|done| + 1] == x
    ensures !IsUpper(x) ==> (done + Piece(x) + after)[|done|] == x
  {
  }

  /** Removes each `_` that stands right before an uppercase letter: the
      inverse of the insertion, on the name before it is lowercased. */
  function Unsnake(u: string): string
    decreases |u|
  {
    if u == [] then []
    else if |u| >= 2 && u[0] == '_' && IsUpper(u[1]) then [u[1]] + Unsnake(u[2..])
    else [u[0]] + Unsnake(u[1..])
  }

  lemma {:induction false} MarkedHead(t: string)
    ensures Marked(t) != [] ==> !IsUpper(Marked(t)[0])
  {
  }

  lemma {:induction false} UnsnakeMarked(t: string)
    ensures Unsnake(Marked(t)) == t
  {
    if t != [] {
      var rest := Marked(t[1..]);
      MarkedHead(t[1..]);
      UnsnakeMarked(t[1..]);
      if IsUpper(t[0]) {
        assert Marked(t) == ['_', t[0]] + rest;
        assert Marked(t)[2..] == rest;
      } else {
        assert Marked(t) == [t[0]] + rest;
        assert Marked(t)[1..] == rest;
      }
    }
  }

  /** Removing the inserted underscores gives back the class name, so the table
      name is the lowercased class name with those underscores added. */
  lemma UnsnakeUnderscored(s: string)
    ensures Unsnake(Underscored(s)) == s
  {
    if s != [] {
      var rest := Marked(s[1..]);
      MarkedHead(s[1..]);
      UnsnakeMarked(s[1..]);
      assert Underscored(s)[1..] == rest;
    }
  }

  /** The name done so far grows by one piece per scanned character. */
  lemma {:induction false} DoneStep(c0: char, t: string, j: nat)
    requires j < |t|
    ensures [c0] + Marked(t[..j + 1]) == ([c0] + Marked(t[..j])) + Piece(t[j])
    ensures |[c0] + Marked(t[..j])| == j + 1 + CountUpper(t[..j])
    ensures CountUpper(t[..j + 1]) == CountUpper(t[..j]) + (if IsUpper(t[j]) then 1 else 0)
  {
    assert t[..j + 1] == t[..j] + [t[j]];
    MarkedSnoc(t[..j], t[j]);
    CountUpperAppend(t[..j], [t[j]]);
    MarkedLength(t[..j]);
  }

  /** Inserting `_` at the end of `done` puts it in front of the next character. */
  lemma InsertAfter(done: string, x: char, tl: string)
    ensures (done + ([x] + tl))[..|done|] + ['_'] + (done + ([x] + tl))[|done|..] == (done + ['_', x]) + tl
  {
    var chars := done + ([x] + tl);
    assert chars[..|done|] == done;
    assert chars[|done|..] == [x] + tl;
  }

  /** Associativity of `+`, stated once so that the proofs above need not
      rediscover it; it carries no meaning of its own. */
  lemma Regroup(a: string, b: string, c: string)
    ensures a + (b + c) == (a + b) + c
  {
  }

  /** The list of characters once the first `j` scanned characters are
      handled: underscores inserted before those, the rest as it was. */
  function Progress(s: string, j: nat): string
    requires j <= |Tail(s)|
  {
    if s == [] then [] else [s[0]] + Marked(Tail(s)[..j]) + Tail(s)[j..]
  }

  /** Before the scan the list is the class name; after it, the name with
      every underscore inserted. */
  lemma ProgressEnds(s: string)
    ensures Progress(s, 0) == s
    ensures Progress(s, |Tail(s)|) == Underscored(s)
  {
    if s != [] {
      assert Tail(s)[..0] == [] && Tail(s)[0..] == s[1..];
      assert Tail(s)[..|Tail(s)|] == s[1..];
    }
  }

  /** One step of the insertion loop: with the first `j` scanned characters
      handled, inserting `_` at `j + 1 + index` exactly when character `j` is
      uppercase handles the first `j + 1`. */
  lemma InsertStep(s: string, j: nat, index: nat, chars: string)
    requires s != [] && j < |Tail(s)| && index == CountUpper(Tail(s)[..j])
    requires chars == Progress(s, j)
    ensures j + 1 + index <= |chars|
    ensures IsUpper(Tail(s)[j]) ==>
      chars[..j + 1 + index] + ['_'] + chars[j + 1 + index..] == Progress(s, j + 1)
    ensures !IsUpper(Tail(s)[j]) ==> chars == Progress(s, j + 1)
    ensures CountUpper(Tail(s)[..j + 1]) == index + (if IsUpper(Tail(s)[j]) then 1 else 0)
  {
    var rest := Tail(s);
    var x, tl := rest[j], rest[j + 1..];
    var done := [s[0]] + Marked(rest[..j]);
    DoneStep(s[0], rest, j);
    assert rest[j..] == [x] + tl;
    if IsUpper(x) {
      InsertAfter(done, x, tl);
    } else {
      Regroup(done, [x], tl);
    }
  }

  lemma MarkedSnoc(t: string, x: char)
    ensures Marked(t + [x]) == Marked(t) + Piece(x)
  {
    MarkedAppend(t, [x]);
    assert [x][1..] == [];
  }

  /** `Base.__tablename__`: copies the name into a list, walks the matches of
      `[A-Z]` in the name without its first character, and inserts `_` at
      `match.end() + index` (the offset shifts by the underscores already
      inserted); then joins and lowercases. */
  method TableNameOf(clsName: string) returns (tableName: string)
    ensures tableName == TableName(clsName)
  {
    var rest := Tail(clsName);
    var chars := clsName;
    var index := 0;
    var j := 0;
    ProgressEnds(clsName);
    while j < |rest|
      invariant j <= |rest|
      invariant index == CountUpper(rest[..j])
      invariant chars == Progress(clsName, j)
    {
      InsertStep(clsName, j, index, chars);
      if IsUpper(rest[j]) {
        chars := chars[..j + 1 + index] + ['_'] + chars[j + 1 + index..];  // insert at match.end() + index
        index := index + 1;
      }
      j := j + 1;
    }
    tableName := LowerAll(chars);
  }

  /** Without uppercase letters nothing is inserted. */
  lemma {:induction false} MarkedNoUpper(t: string)
    requires forall i :: 0 <= i < |t| ==> !IsUpper(t[i])
    ensures Marked(t) == t
  {
    if t != [] {
      MarkedNoUpper(t[1..]);
    }
  }

  lemma LowerAllAppend(a: string, b: string)
    ensures LowerAll(a + b) == LowerAll(a) + LowerAll(b)
  {
  }

  /** Without uppercase letters lowercasing changes nothing. */
  lemma LowerAllNoUpper(t: string)
    requires forall i :: 0 <= i < |t| ==> !IsUpper(t[i])
    ensures LowerAll(t) == t
  {
  }

  /** The foreign key `sucursal.id` names the table of class `Sucursal`. */
  lemma SucursalTable()
    ensures TableName("Sucursal") == "sucursal"
  {
    var s, tl := "Sucursal", "ucursal";
    assert s[1..] == tl;
    MarkedNoUpper(tl);
    assert Underscored(s) == "S" + tl;
    LowerAllAppend("S", tl);
    LowerAllNoUpper(tl);
    LowerPieces();
    Spellings();
  }

  /** A two-word class name gets one underscore, between the words. */
  lemma TwoWordTable()
    ensures TableName("BillItem") == "bill_item"
  {
    TwoWordUnderscored();
    LowerAllAppend("B" + "ill", "_I" + "tem");
    LowerAllAppend("B", "ill");
    LowerAllAppend("_I", "tem");
    LowerAllNoUpper("ill");
    LowerAllNoUpper("tem");
    LowerPieces();
    Spellings();
  }

  lemma TwoWordUnderscored()
    ensures Underscored("BillItem") == ("B" + "ill") + ("_I" + "tem")
  {
    var s := "BillItem";
    assert s[1..] == "ill" + "Item";
    MarkedAppend("ill", "Item");
    MarkedNoUpper("ill");
    MarkedItem();
    Regroup("B", "ill", "_I" + "tem");
  }

  /** `MarkedItem`, `LowerPieces` and `Spellings` split the two examples into
      small steps that keep the solver's work small; they add no property. */
  lemma MarkedItem()
    ensures Marked("Item") == "_I" + "tem"
  {
    MarkedNoUpper("tem");
    assert "Item"[1..] == "tem";
  }

  lemma LowerPieces()
    ensures LowerAll("S") == "s" && LowerAll("B") == "b" && LowerAll("_I") == "_i"
  {
  }

  /** The expected table names, spelled out piece by piece. */
  lemma Spellings()
    ensures "s" + "ucursal" == "sucursal"
    ensures ("b" + "ill") + ("_i" + "tem") == "bill_item"
  {
    assert "b" + "ill" == "bill" && "_i" + "tem" == "_item";
  }
}
